=== FILE: README.md ===
# gRPC over BestHTTP: a Dafny model of the adaptation layer

This project models the layer that lets a .NET gRPC client in Unity run over
BestHTTP's HTTP/2 transport, together with the example server and client
utilities that exercise it.

- `PushPullStream`: a byte queue. gRPC pulls from it and BestHTTP pushes into
  it, or the other way round. It has a flushed flag, a closed flag, a
  non-blocking read mode and a soft capacity of 5 MiB.
- `GRPCBestHttpHandler.SendAsync`:
  - rejects any method other than POST;
  - copies the request headers and adds `Content-Type: application/grpc`;
  - wires up the outgoing and incoming streams;
  - routes header batches to `Content.Headers`, `Headers` or `TrailingHeaders`,
    and completes the response future on the first batch;
  - writes DATA fragments through and flushes them;
  - in the terminal callback, fails a pending response future, or closes the
    incoming stream (with the error after a response, plainly on Finished);
  - turns a cancellation into an abort request.
- `HelloWorldServiceImpl` (Java): the four service methods of the example
  server.
- `GRPCExampleLogger.WriteLogOutput`: a log buffer that drops whole leading
  lines until it is at most 16382 characters long.
- `GrpcTestCallIdFactory`: numbers the calls of the example client, assigns
  them colours round-robin and tracks the active calls.

Each file of the model follows one source file:

| file | module | source |
|---|---|---|
| `wrappers.dfy` | `Wrappers` | `Option` / `Result` |
| `push_pull_stream.dfy` | `PushPullStreams` | `Assets/GRPC.NET/Scripts/PushPullStream.cs` |
| `grpc_best_http_handler.dfy` | `GrpcBestHttpHandler` | `Assets/GRPC.NET/Scripts/GRPCBestHttpHandler.cs` |
| `hello_world_service.dfy` | `HelloWorldService` | `grpc-example-server/src/main/java/net/grpc/example/HelloWorldServiceImpl.java` |
| `example_logger.dfy` | `ExampleLogger` | `Assets/GRPC.NET/Example/GRPCExampleLogger.cs` |
| `call_id_factory.dfy` | `CallIdFactory` | `Assets/GRPC.NET/Example/GRPCExampleTestController.cs` (`GrpcTestCallIdFactory`) |

Objects whose fields the source updates become classes:
- `PushPullStream`, `GrpcCall` (the state the `SendAsync` closures share),
  `Logger`, `GrpcTestCallIdFactory`, and the two request observers of the Java
  service.

Each state-changing method is specified by a step function on a value:
- `Channel` for a stream, `CallState` for a call.
- The method ensures `Model() == XStep(old(Model()), …)`.
- Whole runs of steps are then related by lemmas:
  - writes followed by a close and any reads give the bytes back in order;
  - the response future is set at most once;
  - header routing over any sequence of batches, with DATA fragments between them.

A blocking wait (`Monitor.Wait`) becomes a precondition: the predicate that
wakes the waiting thread. For Read that is `ReadAvailable`; for Write it is a
queue shorter than `MAX_BUFFER_LENGTH`.

Behaviours of the code that a reader might not expect, each stated by the model:
- A `Finished` callback that arrives before any header batch closes the
  incoming stream and leaves the response future pending; no error is raised
  (`FinishedWithoutHeadersLeavesPending`).
- A trailers-only first batch goes to `Content.Headers` and `Headers` only,
  not to `TrailingHeaders`; gRPC reads the trailers of such a response from
  `Headers` (`HeaderRouting`).
- The capacity of the stream is soft. A write is admitted while fewer than
  `MAX_BUFFER_LENGTH` bytes are queued, so one write can take the queue past
  that bound (`WriteStep`).
- `PushPullStream.cs` does not define the `CloseWithException` that the
  handler calls. `CloseWithErrorStep` models it as `Close` that also records
  the error.
- The terminal callback's exception is a value (`Failure`): the client's
  abort, the request's own exception, or the unknown-error exception naming
  the request state. `Message` gives its text.

## Model

| member | source | states |
|---|---|---|
| PushPullStreams.ReadAvailable | Assets/GRPC.NET/Scripts/PushPullStream.cs:54-59 | A closed stream, or one in non-blocking mode, never holds a reader back. Otherwise a reader of `count` bytes proceeds exactly when the stream is flushed and at least `count` bytes are queued. |
| PushPullStreams.ReadStep | Assets/GRPC.NET/Scripts/PushPullStream.cs:28-52 | A zero count changes nothing and returns 0. Otherwise the copied bytes are the front of the queue, in order, and the copied bytes followed by the remaining queue are the old queue. Exactly min(count, queued) bytes are copied (none for a negative count). Only the queue changes. The result is -1 exactly when nothing was copied on an open stream; otherwise it is the number copied. |
| PushPullStreams.WriteStep | Assets/GRPC.NET/Scripts/PushPullStream.cs:68-80 | The old queue stays in front and the data follows it. The flushed flag is cleared and the other flags are kept. An admitted write overshoots the capacity by less than its own length. |
| PushPullStreams.FlushStep | Assets/GRPC.NET/Scripts/PushPullStream.cs:82-88 | The stream is flushed; the queue, the closed flag, the read mode and the error are kept (Flush never reopens a stream). Every reader asking for no more than is queued may proceed. |
| PushPullStreams.CloseStep | Assets/GRPC.NET/Scripts/PushPullStream.cs:90-94 | The stream is closed and flushed, with its queue, read mode and error kept. No reader stays blocked, whatever count it asked for. |
| PushPullStreams.CloseWithErrorStep | Assets/GRPC.NET/Scripts/GRPCBestHttpHandler.cs:190 | The stream is closed and flushed as by Close, with the given error recorded and its queued bytes and read mode kept. No reader stays blocked. |
| PushPullStreams.WriteAllAppends | Assets/GRPC.NET/Scripts/PushPullStream.cs:68-80 | Successive writes append the concatenation of their chunks to the queue. They never change the closed flag, the read mode or the error. |
| PushPullStreams.ReadAllInOrder | Assets/GRPC.NET/Scripts/PushPullStream.cs:39-42 | Over any sequence of reads, the bytes handed out followed by the bytes left queued are the original queue (FIFO order). |
| PushPullStreams.ReadAllKeepsFlags | Assets/GRPC.NET/Scripts/PushPullStream.cs:28-52 | Reads change only the queue: the flags and the error are kept. |
| PushPullStreams.ReadAllDrains | Assets/GRPC.NET/Scripts/PushPullStream.cs:39-42 | Positive read sizes whose sum covers the queue hand out the whole queue and leave it empty. |
| PushPullStreams.WriteCloseReadRoundTrip | Assets/GRPC.NET/Scripts/PushPullStream.cs:28-94 | Chunks written to a new stream that is then closed are read back exactly and in order, by reads of any positive sizes that cover them. Every such read may proceed, and the next read returns 0 (end of stream). |
| PushPullStreams.FlushWakesBlockedReader | Assets/GRPC.NET/Scripts/PushPullStream.cs:54-88 | Two unflushed bytes do not wake a reader waiting for both. After Flush the reader proceeds and receives them in order, and the read returns 2. |
| PushPullStreams.PushPullStream.constructor | Assets/GRPC.NET/Scripts/PushPullStream.cs:23-26 | A new stream is empty, unflushed, open, blocking and has no flush subscribers. |
| PushPullStreams.PushPullStream.Length | Assets/GRPC.NET/Scripts/PushPullStream.cs:61 | The number of queued bytes. A reader asking for all of them waits only for a flush or a close (never in non-blocking mode). |
| PushPullStreams.PushPullStream.Read | Assets/GRPC.NET/Scripts/PushPullStream.cs:28-52 | Once the read may proceed, the new stream state and the result are those of ReadStep. The copied bytes land at the start of the buffer, and the rest of the buffer is untouched. |
| PushPullStreams.PushPullStream.Write | Assets/GRPC.NET/Scripts/PushPullStream.cs:68-80 | Once admitted, the stream becomes WriteStep of the buffer slice [offset, offset+count). |
| PushPullStreams.PushPullStream.Flush | Assets/GRPC.NET/Scripts/PushPullStream.cs:82-88 | The stream becomes FlushStep of its old state, and every flush subscriber is signalled once. |
| PushPullStreams.PushPullStream.Close | Assets/GRPC.NET/Scripts/PushPullStream.cs:90-94 | The stream becomes CloseStep of its old state, and the subscribers are signalled through Flush. |
| PushPullStreams.PushPullStream.CloseWithError | Assets/GRPC.NET/Scripts/GRPCBestHttpHandler.cs:190 | The stream becomes CloseWithErrorStep of its old state. |
| PushPullStreams.PushPullStream.AddFlushCallback | Assets/GRPC.NET/Scripts/GRPCBestHttpHandler.cs:81 | One more handler is subscribed to OnStreamFlushCallback. |
| GrpcBestHttpHandler.PrepareRequest | Assets/GRPC.NET/Scripts/GRPCBestHttpHandler.cs:24-46 | Fails with "gRPC only supports POST method." exactly when the method is not POST in any letter case. Otherwise every header value is copied under its own name, in order, and Content-Type gets "application/grpc" after any values it already had. No header list is empty. |
| GrpcBestHttpHandler.IsPost | Assets/GRPC.NET/Scripts/GRPCBestHttpHandler.cs:24 | The method test ignores letter case: it holds exactly for four-letter names whose letters are P, O, S, T in either case. |
| GrpcBestHttpHandler.PostInAnyCase | Assets/GRPC.NET/Scripts/GRPCBestHttpHandler.cs:24-25 | The POST check accepts "POST", "post" and "Post", refuses "GET" and "POSTS", and accepts only four-letter names starting with P and ending with T in either case. |
| GrpcBestHttpHandler.TrailersOnly | Assets/GRPC.NET/Scripts/GRPCBestHttpHandler.cs:109 | A batch after the first is never trailers-only. The first batch is trailers-only exactly when it carries grpc-status. |
| GrpcBestHttpHandler.HeadersStep | Assets/GRPC.NET/Scripts/GRPCBestHttpHandler.cs:105-151 | After any header batch the response future is set, and a future already set keeps its value. Every later batch counts as a trailer. A closed incoming stream stays closed. |
| GrpcBestHttpHandler.DataStep | Assets/GRPC.NET/Scripts/GRPCBestHttpHandler.cs:155-161 | The fragment is appended to the incoming queue and the stream is left flushed. Its closed flag and error are kept, and nothing else in the call changes. |
| GrpcBestHttpHandler.UnknownErrorMessage | Assets/GRPC.NET/Scripts/GRPCBestHttpHandler.cs:174 | The made-up message names the request state between a fixed prefix and ")." It differs from the client-abort message. |
| GrpcBestHttpHandler.UnknownErrorNamesState | Assets/GRPC.NET/Scripts/GRPCBestHttpHandler.cs:174 | Distinct request states give distinct unknown-error messages. |
| GrpcBestHttpHandler.SelectedError | Assets/GRPC.NET/Scripts/GRPCBestHttpHandler.cs:172-181 | The exception is the client-abort one exactly for an aborted request, whatever exception the request carries. Otherwise it is the request's own exception when there is one, and the unknown-error one naming the state when there is none. Its message is decided in that order. |
| GrpcBestHttpHandler.Message | Assets/GRPC.NET/Scripts/GRPCBestHttpHandler.cs:174-179 | The request's own exception keeps its message. Of the two made-up messages, the client-abort one belongs exactly to an abort. |
| GrpcBestHttpHandler.TerminalStep | Assets/GRPC.NET/Scripts/GRPCBestHttpHandler.cs:169-201 | A state other than Finished on a pending future fails it with the selected exception and leaves the stream as it was; on a set future it closes the stream with that exception's message. Finished closes the stream and keeps the future. The registration is disposed, and nothing else changes (Content.Headers, Headers, TrailingHeaders, status, the header flag, the abort request). The stream ends closed unless the exception went into a pending future. |
| GrpcBestHttpHandler.CancelStep | Assets/GRPC.NET/Scripts/GRPCBestHttpHandler.cs:164-167 | An abort is requested exactly when one was already requested or the registration is still live. Nothing else changes. |
| GrpcBestHttpHandler.ResponseSetOnce | Assets/GRPC.NET/Scripts/GRPCBestHttpHandler.cs:146-147 | Over any sequence of callbacks, a set response future keeps its value and a closed incoming stream stays closed. |
| GrpcBestHttpHandler.HeaderRouting | Assets/GRPC.NET/Scripts/GRPCBestHttpHandler.cs:111-128 | For any non-empty sequence of header batches, Content.Headers holds all of them merged in order. Headers holds the first batch only, trailers-only or not. TrailingHeaders holds every later batch merged in order. |
| GrpcBestHttpHandler.FirstBatchResolves | Assets/GRPC.NET/Scripts/GRPCBestHttpHandler.cs:108-150 | The status line is the first batch's and the future is resolved. The incoming stream is closed exactly when the first batch carried grpc-status or a second batch arrived. |
| GrpcBestHttpHandler.ReceivedRun | Assets/GRPC.NET/Scripts/GRPCBestHttpHandler.cs:105-161 | With DATA fragments between the header batches, the call ends as the header batches alone would leave it: same headers, status, future and closed flag. The incoming stream holds every fragment, in order. |
| GrpcBestHttpHandler.StreamingResponse | Assets/GRPC.NET/Scripts/GRPCBestHttpHandler.cs:105-161 | A streaming response, DATA included: Headers holds the first header batch, TrailingHeaders the later ones and Content.Headers all of them. The first batch gives the status line and resolves the future. The stream holds every fragment and is closed exactly when the first batch carried grpc-status or a later batch arrived. |
| GrpcBestHttpHandler.AbortBeforeHeaders | Assets/GRPC.NET/Scripts/GRPCBestHttpHandler.cs:164-186 | A cancellation before any header, followed by the Aborted callback, fails the future with the client-abort exception ("gRPC call aborted by client."). No later callback changes that. |
| GrpcBestHttpHandler.FinishedWithoutHeadersLeavesPending | Assets/GRPC.NET/Scripts/GRPCBestHttpHandler.cs:193-197 | A Finished callback with no header before it closes the stream but leaves the future pending. |
| GrpcBestHttpHandler.GrpcCall.constructor | Assets/GRPC.NET/Scripts/GRPCBestHttpHandler.cs:50-56 | A new call starts from the initial call state. Its outgoing stream is new, distinct from the incoming one, and reads without blocking. |
| GrpcBestHttpHandler.GrpcCall.AddBatch | Assets/GRPC.NET/Scripts/GRPCBestHttpHandler.cs:111-128 | Content.Headers gains the whole batch. Exactly one of Headers and TrailingHeaders gains it too, as chosen; the other is unchanged. |
| GrpcBestHttpHandler.GrpcCall.OnHeadersReceived | Assets/GRPC.NET/Scripts/GRPCBestHttpHandler.cs:105-151 | The call state becomes HeadersStep of its old state. |
| GrpcBestHttpHandler.GrpcCall.OnStreamingData | Assets/GRPC.NET/Scripts/GRPCBestHttpHandler.cs:155-161 | The fragment is accepted and the call state becomes DataStep of its old state. |
| GrpcBestHttpHandler.GrpcCall.OnRequestFinished | Assets/GRPC.NET/Scripts/GRPCBestHttpHandler.cs:169-201 | The call state becomes TerminalStep of its old state. |
| GrpcBestHttpHandler.GrpcCall.OnCancel | Assets/GRPC.NET/Scripts/GRPCBestHttpHandler.cs:164-167 | The call state becomes CancelStep of its old state. |
| GrpcBestHttpHandler.SendAsync | Assets/GRPC.NET/Scripts/GRPCBestHttpHandler.cs:22-56 | A request whose method is not POST in any letter case is refused with the NotSupported message. Otherwise a new call is set up in its initial state, with the request headers copied and the gRPC content type added. |
| HelloWorldService.Hello | grpc-example-server/src/main/java/net/grpc/example/HelloWorldServiceImpl.java:19-53 | The response follows the observer protocol. It greets "Hello " + text unless a no-response or before-exception marker is present. It ends in an error exactly when no [no-response] marker is present and some exception marker is. An error before the greeting is INVALID_ARGUMENT "Before Response Exception", one after it INTERNAL "After Response Exception". " with Metadata" and the two metadata entries are added exactly for the -meta marker when the plain marker is absent. |
| HelloWorldService.SendMessageFor | grpc-example-server/src/main/java/net/grpc/example/HelloWorldServiceImpl.java:56-66 | The observer protocol holds: msg [n], msg [n-1], …, msg [1], then Completed (just Completed when n <= 0). |
| HelloWorldService.HelloServer | grpc-example-server/src/main/java/net/grpc/example/HelloWorldServiceImpl.java:69-73 | Four numbered greetings, counting down from 4, then Completed. |
| HelloWorldService.StopErrorsAreStopErrors | grpc-example-server/src/main/java/net/grpc/example/HelloWorldServiceImpl.java:83-92 | onNext emits one INTERNAL "Abort from Server side" error per message containing [stop], and nothing else. |
| HelloWorldService.HelloClientShape | grpc-example-server/src/main/java/net/grpc/example/HelloWorldServiceImpl.java:76-106 | The response is one error per [stop] message, then "Hello to all  " + the number of all messages, then Completed. |
| HelloWorldService.HelloClientProtocol | grpc-example-server/src/main/java/net/grpc/example/HelloWorldServiceImpl.java:76-106 | The response follows the observer protocol exactly when no message contains [stop]. |
| HelloWorldService.HelloClientObserver.constructor | grpc-example-server/src/main/java/net/grpc/example/HelloWorldServiceImpl.java:78-80 | Nothing received, nothing sent, count 0. |
| HelloWorldService.HelloClientObserver.OnNext | grpc-example-server/src/main/java/net/grpc/example/HelloWorldServiceImpl.java:83-92 | Counts the message and sends the stop error exactly when it contains [stop]. The invariant sent == StopErrors(received) is kept. |
| HelloWorldService.HelloClientObserver.OnError | grpc-example-server/src/main/java/net/grpc/example/HelloWorldServiceImpl.java:95-97 | A client error sends nothing and changes nothing. |
| HelloWorldService.HelloClientObserver.OnCompleted | grpc-example-server/src/main/java/net/grpc/example/HelloWorldServiceImpl.java:100-104 | What has been sent is the whole helloClient response for the messages received. |
| HelloWorldService.Echoes | grpc-example-server/src/main/java/net/grpc/example/HelloWorldServiceImpl.java:116-123 | The i-th message is echoed as "message [i]", counting from 0, one echo per message. |
| HelloWorldService.HelloBothTrace | grpc-example-server/src/main/java/net/grpc/example/HelloWorldServiceImpl.java:109-136 | The response follows the observer protocol, and its texts are the indexed echoes of the messages, in order. |
| HelloWorldService.HelloBothObserver.constructor | grpc-example-server/src/main/java/net/grpc/example/HelloWorldServiceImpl.java:111-113 | Nothing received, nothing sent, count 0. |
| HelloWorldService.HelloBothObserver.OnNext | grpc-example-server/src/main/java/net/grpc/example/HelloWorldServiceImpl.java:116-123 | Echoes the message with the number of messages before it. The invariant sent == Echoes(received) is kept. |
| HelloWorldService.HelloBothObserver.OnError | grpc-example-server/src/main/java/net/grpc/example/HelloWorldServiceImpl.java:126-128 | A client error sends nothing and changes nothing. |
| HelloWorldService.HelloBothObserver.OnCompleted | grpc-example-server/src/main/java/net/grpc/example/HelloWorldServiceImpl.java:131-134 | What has been sent is the whole helloBoth response for the messages received. |
| ExampleLogger.IndexOfNewline | Assets/GRPC.NET/Example/GRPCExampleLogger.cs:17 | The result is the position of the first newline, or -1 exactly when there is none. |
| ExampleLogger.DropLine | Assets/GRPC.NET/Example/GRPCExampleLogger.cs:17-18 | Dropping the first line of non-empty whole-line text leaves a shorter suffix that starts a line and is again whole lines. |
| ExampleLogger.Trimmed | Assets/GRPC.NET/Example/GRPCExampleLogger.cs:15-19 | The trimmed log fits MAX_SIZE, is a suffix of the text that starts at a line boundary, and consists of whole lines. Text that already fits is kept unchanged. |
| ExampleLogger.TrimmedIsLongestFit | Assets/GRPC.NET/Example/GRPCExampleLogger.cs:15-19 | Only as much is dropped as needed: every longer suffix starting at a line boundary exceeds MAX_SIZE. |
| ExampleLogger.Logger.constructor | Assets/GRPC.NET/Example/GRPCExampleLogger.cs:9 | The log starts empty. |
| ExampleLogger.Logger.WriteLogOutput | Assets/GRPC.NET/Example/GRPCExampleLogger.cs:12-21 | The log becomes Trimmed(old log + s + newline). |
| CallIdFactory.FirstIndex | Assets/GRPC.NET/Example/GRPCExampleTestController.cs:203 | The position of the first occurrence of an element that is present. |
| CallIdFactory.RemoveFirst | Assets/GRPC.NET/Example/GRPCExampleTestController.cs:203 | `List.Remove`: a list without the element is left as it is; otherwise it loses exactly one entry. |
| CallIdFactory.RemoveFirstDropsFirst | Assets/GRPC.NET/Example/GRPCExampleTestController.cs:203 | List.Remove leaves a list without the element unchanged. Otherwise it removes exactly the first occurrence and keeps the order of the rest. |
| CallIdFactory.RemoveFirstMultiset | Assets/GRPC.NET/Example/GRPCExampleTestController.cs:203 | List.Remove takes away exactly one copy of the element, if any. |
| CallIdFactory.GrpcTestCallIdFactory.constructor | Assets/GRPC.NET/Example/GRPCExampleTestController.cs:180-183 | Counter 0, colour index 0, no active calls. |
| CallIdFactory.GrpcTestCallIdFactory.CreateNext | Assets/GRPC.NET/Example/GRPCExampleTestController.cs:185-199 | The id is the incremented counter, which equals the number of calls created. The colour is the one at the colour index, which advances cyclically over the 8 colours and stays equal to (calls created) mod 8. The call is appended to the active calls. |
| CallIdFactory.GrpcTestCallIdFactory.GetActiveCalls | Assets/GRPC.NET/Example/GRPCExampleTestController.cs:202 | Returns the active calls: each is a created call, at most as often as it was created, so there are no more of them than calls created. |
| CallIdFactory.GrpcTestCallIdFactory.Completed | Assets/GRPC.NET/Example/GRPCExampleTestController.cs:203 | The first occurrence of the call is removed from the active calls, and the active calls stay among the created ones. |
| CallIdFactory.CreateMany | Assets/GRPC.NET/Example/GRPCExampleTestController.cs:185-199 | On a fresh factory, the k-th call (from 0) gets id k+1 and colour k mod 8. |

## Left out

- Locking and `Monitor.Wait`/`Pulse`: each blocking wait becomes a precondition on its wake-up predicate, and every call is one atomic step. Interleavings of concurrent readers and writers are not modelled.
- PushPullStreams.PushPullStream.Read: requires `count <= buffer.Length`. This excludes two source behaviours: an IndexOutOfRangeException partway through a copy that runs past the buffer, and a request larger than the buffer that the source serves without error because few bytes are queued.
- PushPullStreams.PushPullStream.Write: requires the slice `[offset, offset+count)` to lie inside the buffer. The source enqueues the bytes up to the buffer's end and then throws IndexOutOfRangeException; that partial write is not modelled.
- PushPullStreams.PushPullStream.Read: the recorded error of a stream closed with an error is not raised by Read, because the source's Read has no such path and `CloseWithException` is not part of this model's source. The offset argument is ignored, as in the source.
- PushPullStream `Position`, `Seek`, `SetLength`, `CanRead`/`CanSeek`/`CanWrite`: constant answers or `NotSupportedException`, with no state.
- Flush handlers are counted, not run. The only handler, subscribed by SendAsync at GRPCBestHttpHandler.cs:81, calls BestHTTP's `HTTP2Handler.SignalRunnerThread`, which is BestHTTP code.
- BestHTTP plumbing of `SendAsync`: the HTTPRequest construction, `MaxRetries`, the stream-chunk settings, `CopyToAsync`, the `OnBeforeHeaderSend` lookup of the HTTP/2 handler, `ReadAsStreamAsync().ContinueWith(Close)`, `Send()` and `Abort()`. These are calls into libraries, so an abort is recorded as a flag.
- GrpcBestHttpHandler.HeadersStep: `TryAddWithoutValidation` is taken always to succeed and header names to be compared exactly. The .NET collections may refuse some names and compare them case-insensitively.
- GrpcBestHttpHandler.PrepareRequest: BestHTTP's `AddHeader` keys header names case-insensitively, while the model keys them exactly, so two request headers differing only in case stay separate here. The POST check folds ASCII letters only; .NET's culture-invariant case mapping of other characters is not modelled.
- GrpcBestHttpHandler.SendAsync: the same ASCII-only case folding of the method name as PrepareRequest.
- GrpcBestHttpHandler.IsPost: folds ASCII letters only. .NET's culture-invariant case mapping of other characters is not modelled, so a method name that maps to POST only through non-ASCII folding is refused here.
- GrpcBestHttpHandler.HeadersStep: the HTTP status code, reason phrase and version are recorded as the first batch's status line without the numeric casts.
- `ServerStreamHttpContent.cs` is not part of this model. It only wraps the incoming stream as HttpContent.
- The response future is a three-valued value (`Pending`, `Resolved`, `Faulted`). Task continuations and thread-pool scheduling are not modelled.
- HelloWorldService.SendMessageFor: the 3-second scheduling between messages is replaced by plain recursion. Only the order of the calls on the observer is modelled, and console output is left out.
- HelloWorldService: io.grpc's own reaction to calls after `onError` (it rejects them) is not modelled. HelloClientProtocol states where the service makes such calls.
- HelloWorldService.HelloClientObserver.OnNext: the Java `int` counter is unbounded here; wrap-around after 2^31 messages is not modelled.
- HelloWorldService.HelloBothObserver.OnNext: the Java `int` counter printed into each echo is unbounded here. Past 2^31 - 1 messages the source wraps to negative numbers in the echoes; the model keeps counting up.
- `HelloWorldServer.java` and the two interceptors: server start-up and logging only.
- ExampleLogger.Trimmed: lengths count characters, while C#'s `string.Length` counts UTF-16 code units. Text outside the Basic Multilingual Plane counts twice in the source, so the source may trim more than the model does.
- ExampleLogger.Logger.WriteLogOutput: lengths count characters, not UTF-16 code units, as for Trimmed.
- ExampleLogger.Logger.WriteLogOutput: the scroll-view update (`m_LogScrollView.y = int.MaxValue`) and `OnGUI` rendering are UI state and are left out.
- CallIdFactory.GrpcTestCallIdFactory.GetActiveCalls: returns the list's value at the moment of the call. The source returns the live `List` itself, and the caller walks it while `Completed` may remove from it (the source marks this with a FIXME). That aliasing, and the enumeration failure it can cause, is not modelled.
- CallIdFactory.GrpcTestCallIdFactory.CreateNext: `Interlocked.Increment` is a plain increment, and 32-bit wrap-around of the counter is not modelled. Colours are their indices into `ColorList`, since `Hex2Color` parsing is Unity code.
- The rest of `GRPCExampleTestController.cs` is left out: `Update`'s timer, the asynchronous test calls and the UI. It is UI and scheduling code around the factory.

=== FILE: call_id_factory.dfy ===
/**
 * The call-id and colour allocator of the example client
 * (GrpcTestCallIdFactory in Assets/GRPC.NET/Example/GRPCExampleTestController.cs).
 * Colours are their indices into ColorList.
 */
module CallIdFactory {

  /** The hex codes of ColorList, in order. */
  const ColorList: seq<string> :=
    ["#db5f57", "#dbc257", "#91db57", "#57db80", "#57d3db", "#5770db", "#a157db", "#db57b2"]

  /** The index of the first occurrence of x in s. */
  function FirstIndex<T(==)>(s: seq<T>, x: T): (i: nat)
    requires x in s
    ensures i < |s| && s[i] == x
    ensures forall j :: 0 <= j < i ==> s[j] != x
  {
    if s[0] == x then 0 else FirstIndex(s[1..], x) + 1
  }

  /** `List.Remove(x)`: scans for the first occurrence of x and drops it. */
  function RemoveFirst<T(==)>(s: seq<T>, x: T): (r: seq<T>)
    // a list without x is left as it is; otherwise it loses one entry
    ensures x !in s ==> r == s
    ensures x in s ==> |r| == |s| - 1
  {
    if s == [] then []
    else if s[0] == x then s[1..]
    else [s[0]] + RemoveFirst(s[1..], x)
  }

  /**
   * Remove leaves a list without x unchanged, and otherwise drops exactly the
   * first occurrence of x, keeping the other entries in order.
   */
  lemma {:induction false} RemoveFirstDropsFirst<T>(s: seq<T>, x: T)
    ensures x !in s ==> RemoveFirst(s, x) == s
    ensures x in s ==> RemoveFirst(s, x) == s[..FirstIndex(s, x)] + s[FirstIndex(s, x) + 1..]
  {
    if x in s && s[0] != x {
      var t := s[1..];
      assert s == [s[0]] + t;
      assert x in t;
      RemoveFirstDropsFirst(t, x);
      var j := FirstIndex(t, x);
      assert FirstIndex(s, x) == j + 1;
      assert RemoveFirst(s, x) == [s[0]] + (t[..j] + t[j + 1..]);
      assert s[..j + 1] == [s[0]] + t[..j];
      assert s[j + 2..] == t[j + 1..];
    }
  }

  /** Remove takes out exactly one x when there is one, and nothing else. */
  lemma {:induction false} RemoveFirstMultiset<T>(s: seq<T>, x: T)
    ensures multiset(RemoveFirst(s, x)) == multiset(s) - multiset{x}
  {
    if s != [] {
      assert s == [s[0]] + s[1..];
      if s[0] != x {
        RemoveFirstMultiset(s[1..], x);
        assert RemoveFirst(s, x) == [s[0]] + RemoveFirst(s[1..], x);
      }
    }
  }

  /** Advancing the call counter by one advances its colour by one, wrapping to 0 after the last. */
  lemma ColorStep(k: int)
    requires k >= 0
    ensures (k + 1) % |ColorList| == if k % |ColorList| + 1 >= |ColorList| then 0 else k % |ColorList| + 1
  {
    assert |ColorList| == 8;
    var q, r := k / 8, k % 8;
    assert k == 8 * q + r;
    if r + 1 < 8 {
      assert k + 1 == 8 * q + (r + 1);
    } else {
      assert k + 1 == 8 * (q + 1);
    }
  }

  class GrpcTestCallIdFactory<Call(==)> {
    var inc: int
    var colorPointer: int
    var activeCalls: seq<Call>
    /** Every call handed to CreateNext so far, in order. */
    ghost var created: seq<Call>

    /**
     * The counter numbers the calls created, the colour index is within ColorList
     * and has advanced once per call, and only created calls are active, each at
     * most as often as it was created.
     */
    ghost predicate Valid()
      reads this
    {
      && inc == |created|
      && 0 <= colorPointer < |ColorList| && colorPointer == inc % |ColorList|
      && multiset(activeCalls) <= multiset(created)
    }

    constructor ()
      ensures Valid() && inc == 0 && colorPointer == 0 && activeCalls == [] && created == []
    {
      inc, colorPointer, activeCalls := 0, 0, [];
      created := [];
    }

    /**
     * Numbers the call (1, 2, 3, ...), gives the k-th call (from 0) colour
     * k mod 8, and adds it to the active calls.
     */
    method CreateNext(call: Call) returns (id: int, color: nat)
      requires Valid()
      modifies this
      ensures Valid()
      ensures inc == old(inc) + 1 && id == inc
      ensures color == old(inc) % |ColorList| && color < |ColorList|
      ensures colorPointer == (old(colorPointer) + 1) % |ColorList|
      ensures activeCalls == old(activeCalls) + [call] && created == old(created) + [call]
    {
      ColorStep(inc);
      inc := inc + 1;
      var c := colorPointer;
      colorPointer := colorPointer + 1;
      if colorPointer >= |ColorList| {
        colorPointer := 0;
      }
      assert multiset(activeCalls + [call]) == multiset(activeCalls) + multiset{call};
      assert multiset(created + [call]) == multiset(created) + multiset{call};
      activeCalls := activeCalls + [call];
      created := created + [call];
      return inc, c;
    }

    /** The active calls: calls created and not yet completed as often as created. */
    method GetActiveCalls() returns (calls: seq<Call>)
      requires Valid()
      ensures calls == activeCalls
      ensures multiset(calls) <= multiset(created)
      ensures |calls| <= inc
    {
      assert multiset(created) == multiset(activeCalls) + (multiset(created) - multiset(activeCalls));
      assert |multiset(activeCalls)| == |activeCalls| && |multiset(created)| == |created|;
      return activeCalls;
    }

    /** Removes the first occurrence of the call from the active calls. */
    method Completed(call: Call)
      requires Valid()
      modifies this`activeCalls
      ensures Valid()
      ensures activeCalls == RemoveFirst(old(activeCalls), call)
    {
      RemoveFirstMultiset(activeCalls, call);
      activeCalls := RemoveFirst(activeCalls, call);
    }
  }

  /** The colour the k-th call (from 0) receives. */
  function ColorOf(k: nat): (c: nat)
    ensures c < |ColorList|
  {
    k % |ColorList|
  }

  /**
   * Creating calls one after another: ids 1, 2, 3, ..., and colours 0, 1, ..., 7, 0, ...
   * This client drives a fresh factory through n creations.
   */
  method CreateMany<Call(==)>(calls: seq<Call>) returns (ids: seq<int>, colors: seq<nat>)
    ensures |ids| == |calls| && |colors| == |calls|
    ensures forall k :: 0 <= k < |calls| ==> ids[k] == k + 1 && colors[k] == ColorOf(k)
  {
    var factory := new GrpcTestCallIdFactory<Call>();
    ids, colors := [], [];
    for k := 0 to |calls|
      invariant factory.Valid() && factory.inc == k
      invariant |ids| == k && |colors| == k
      invariant forall j :: 0 <= j < k ==> ids[j] == j + 1 && colors[j] == ColorOf(j)
      invariant factory.activeCalls == calls[..k]
    {
      var id, color := factory.CreateNext(calls[k]);
      ids, colors := ids + [id], colors + [color];
    }
  }
}

=== FILE: example_logger.dfy ===
/**
 * The on-screen log of the example client (Assets/GRPC.NET/Example/GRPCExampleLogger.cs):
 * a string buffer that drops whole leading lines until it fits MAX_SIZE.
 */
module ExampleLogger {

  const MAX_SIZE: int := 16382

  /** `s.IndexOf("\n", StringComparison.Ordinal)`: the first newline, or -1. */
  function IndexOfNewline(s: string): (i: int)
    ensures -1 <= i < |s|
    ensures i == -1 ==> forall j :: 0 <= j < |s| ==> s[j] != '\n'
    ensures i >= 0 ==> s[i] == '\n' && forall j :: 0 <= j < i ==> s[j] != '\n'
  {
    if s == [] then -1
    else if s[0] == '\n' then 0
    else
      var j := IndexOfNewline(s[1..]);
      if j == -1 then -1 else j + 1
  }

  /** Empty, or ending with a newline: whole lines only. */
  predicate WholeLines(s: string)
  {
    s == [] || s[|s| - 1] == '\n'
  }

  /** `s` starts at the beginning of a line of `t`. */
  predicate LineSuffix(s: string, t: string)
  {
    |s| <= |t| && s == t[|t| - |s|..] && (|s| == |t| || t[|t| - |s| - 1] == '\n')
  }

  /** One round of the trimming loop: everything up to and including the first newline goes. */
  function DropLine(t: string): (r: string)
    requires t != [] && WholeLines(t)
    ensures |r| < |t| && WholeLines(r)
    ensures LineSuffix(r, t)
  {
    FirstNewline(t, |t| - 1);
    t[IndexOfNewline(t) + 1..]
  }

  /**
   * The trimming loop: while the content is longer than MAX_SIZE, drop its
   * first line.
   */
  function Trimmed(t: string): (r: string)
    requires WholeLines(t)
    ensures |r| <= MAX_SIZE
    ensures LineSuffix(r, t)
    ensures WholeLines(r)
    ensures |t| <= MAX_SIZE ==> r == t
    decreases |t|
  {
    if |t| <= MAX_SIZE then t
    else
      var rest := DropLine(t);
      var r := Trimmed(rest);
      assert r == t[|t| - |r|..] by {
        assert rest[|rest| - |r|..] == t[|t| - |r|..];
      }
      assert |r| == |rest| || t[|t| - |r| - 1] == rest[|rest| - |r| - 1];
      r
  }

  /**
   * Only as much is dropped as needed: Trimmed(t) is the longest suffix of t that
   * begins a line and fits, since every longer one is over MAX_SIZE.
   */
  lemma {:induction false} TrimmedIsLongestFit(t: string, k: int)
    requires WholeLines(t)
    requires LineStart(t, k) && k < |t| - |Trimmed(t)|
    ensures |t| - k > MAX_SIZE
    decreases |t|
  {
    if |t| > MAX_SIZE && k > 0 {
      var rest := DropLine(t);
      FirstNewline(t, k - 1);
      var k' := k - (|t| - |rest|);
      assert k' == 0 || rest[k' - 1] == t[k - 1];
      TrimmedIsLongestFit(rest, k');
    }
  }

  /** No newline comes before the one IndexOfNewline finds. */
  lemma FirstNewline(t: string, j: int)
    requires 0 <= j < |t| && t[j] == '\n'
    ensures 0 <= IndexOfNewline(t) <= j
  {
  }

  /** Position k of t begins a line. */
  predicate LineStart(t: string, k: int)
  {
    0 <= k <= |t| && (k == 0 || t[k - 1] == '\n')
  }

  /** The log view's text buffer. */
  class Logger {
    var content: string

    constructor ()
      ensures content == ""
    {
      content := "";
    }

    /** Appends `s` and a newline, then drops leading lines until the content fits. */
    method WriteLogOutput(s: string)
      modifies this`content
      ensures content == Trimmed(old(content) + s + "\n")
    {
      content := content + s + "\n";
      ghost var full := content;
      while |content| > MAX_SIZE
        invariant WholeLines(content)
        invariant Trimmed(content) == Trimmed(full)
        decreases |content|
      {
        var index := IndexOfNewline(content);
        assert content[index + 1..] == DropLine(content);
        content := content[index + 1..];
      }
    }
  }
}

=== FILE: grpc_best_http_handler.dfy ===
/**
 * The callback state machine that SendAsync wires onto one BestHTTP request
 * (Assets/GRPC.NET/Scripts/GRPCBestHttpHandler.cs): the POST check and header
 * copy, the header-batch classifier, the data callback and the terminal callback.
 *
 * Each callback is a method of GrpcCall whose new state is given by a step
 * function on the value CallState; the lemmas below relate whole runs of
 * callbacks to what a gRPC client sees.
 */
module GrpcBestHttpHandler {
  import opened Wrappers
  import opened PushPullStreams

  /** A header collection: each name with its ordered list of values. */
  type Headers = map<string, seq<string>>

  const ContentType := "Content-Type"
  const GrpcContentType := "application/grpc"
  const GrpcStatus := "grpc-status"
  const NotPostMessage := "gRPC only supports POST method."
  const AbortedMessage := "gRPC call aborted by client."

  /** The parts of an HttpRequestMessage the handler looks at. */
  datatype HttpRequestMessage = HttpRequestMessage(httpMethod: string, headers: Headers)

  /** BestHTTP's HTTPRequestStates. */
  datatype RequestState =
    | Initial | Queued | Processing | Finished | Error | Aborted | ConnectionTimedOut | TimedOut

  /** The single-assignment response future (a TaskCompletionSource). */
  datatype Future = Pending | Resolved | Faulted(error: Failure)

  /**
   * The exception the terminal callback selects: the client's abort, the request's
   * own exception, or the "unknown error" raised for a state with none.
   */
  datatype Failure = ClientAborted | Raised(message: string) | UnknownError(state: RequestState)

  /** Status code, reason phrase and HTTP version of a response. */
  datatype StatusLine = StatusLine(code: int, reason: string, versionMajor: int, versionMinor: int)

  /** One header callback: its header dictionary and the response's status line. */
  datatype Batch = Batch(fields: Headers, line: StatusLine)

  /** ASCII upper-casing of one character. */
  function UpperAscii(c: char): char
  {
    if 'a' <= c <= 'z' then (c as int - 32) as char else c
  }

  /** `method == HttpMethod.Post`: HttpMethod compares method names ignoring case. */
  function IsPost(m: string): (r: bool)
    // letter by letter: exactly the spellings of POST in upper or lower case
    ensures r <==> |m| == 4 && (m[0] == 'P' || m[0] == 'p') && (m[1] == 'O' || m[1] == 'o')
                   && (m[2] == 'S' || m[2] == 's') && (m[3] == 'T' || m[3] == 't')
  {
    |m| == 4 && forall i :: 0 <= i < 4 ==> UpperAscii(m[i]) == "POST"[i]
  }

  /** The method name is matched in any letter case, and nothing else matches. */
  lemma PostInAnyCase(m: string)
    ensures IsPost("POST") && IsPost("post") && IsPost("Post")
    ensures IsPost(m) ==> |m| == 4 && (m[0] == 'P' || m[0] == 'p') && (m[3] == 'T' || m[3] == 't')
    ensures !IsPost("GET") && !IsPost("POSTS")
  {
    assert UpperAscii('p') == 'P' && UpperAscii('o') == 'O' && UpperAscii('s') == 'S' && UpperAscii('t') == 'T';
    if IsPost(m) {
      assert UpperAscii(m[0]) == 'P' && UpperAscii(m[3]) == 'T';
    }
  }

  /** The values listed under `key`, none if it is absent. */
  function Get(m: Headers, key: string): seq<string>
  {
    if key in m then m[key] else []
  }

  /** Adding `values` under `key` (AddHeader, TryAddWithoutValidation): they join the key's list. */
  function AddValues(m: Headers, key: string, values: seq<string>): Headers
  {
    m[key := Get(m, key) + values]
  }

  /** Every entry of `batch` added to `m`. */
  function Merge(m: Headers, batch: Headers): Headers
  {
    map k | k in m.Keys + batch.Keys :: Get(m, k) + Get(batch, k)
  }

  /** The entries of `b` whose names are in `ks`. */
  function Restrict(b: Headers, ks: set<string>): Headers
  {
    map k | k in b && k in ks :: b[k]
  }

  lemma MergeFacts(m: Headers, batch: Headers)
    ensures Merge(m, batch).Keys == m.Keys + batch.Keys
    ensures forall k :: k in Merge(m, batch) ==> Merge(m, batch)[k] == Get(m, k) + Get(batch, k)
  {
  }

  lemma RestrictFacts(b: Headers, ks: set<string>)
    ensures Restrict(b, ks).Keys == b.Keys * ks
    ensures forall k :: k in Restrict(b, ks) ==> Restrict(b, ks)[k] == b[k]
  {
  }

  lemma MergeOneMore(m: Headers, b: Headers, done: set<string>, k: string)
    requires k in b && k !in done
    ensures Merge(m, Restrict(b, done + {k})) == AddValues(Merge(m, Restrict(b, done)), k, b[k])
  {
    var small, big := Restrict(b, done), Restrict(b, done + {k});
    var mid := Merge(m, small);
    var lhs := Merge(m, big);
    var rhs := AddValues(mid, k, b[k]);
    RestrictFacts(b, done);
    RestrictFacts(b, done + {k});
    MergeFacts(m, small);
    MergeFacts(m, big);
    assert big.Keys == small.Keys + {k};
    assert lhs.Keys == rhs.Keys;
    forall j | j in lhs
      ensures lhs[j] == rhs[j]
    {
      if j == k {
        assert k !in small;
        assert Get(mid, k) == Get(m, k);
        assert Get(big, k) == b[k];
      } else {
        assert Get(big, j) == Get(small, j);
      }
    }
  }

  lemma RestrictAll(b: Headers)
    ensures Restrict(b, b.Keys) == b
  {
  }

  lemma MergeNothing(m: Headers, b: Headers)
    ensures Merge(m, Restrict(b, {})) == m
  {
    var r := Merge(m, Restrict(b, {}));
    assert Restrict(b, {}) == map[];
    assert r.Keys == m.Keys;
    forall k | k in m
      ensures r[k] == m[k]
    {
      assert Get(Restrict(b, {}), k) == [];
    }
  }

  // ---------------------------------------------------------------------------
  // Pre-flight checks of SendAsync
  // ---------------------------------------------------------------------------

  /**
   * `out` holds every value of every header of `src` under its own name, and
   * `Content-Type: application/grpc` after any Content-Type values of `src`.
   */
  ghost predicate CopiedWithContentType(src: Headers, out: Headers)
  {
    && (forall k :: k != ContentType ==> Get(out, k) == Get(src, k))
    && Get(out, ContentType) == Get(src, ContentType) + [GrpcContentType]
    && (forall k :: k in out ==> out[k] != [])
  }

  /**
   * Rejects a method other than POST with NotSupportedException before anything
   * else, then copies the request headers value by value onto a new request and
   * adds the gRPC content type.
   */
  method PrepareRequest(request: HttpRequestMessage) returns (r: Result<Headers>)
    ensures r.Err? <==> !IsPost(request.httpMethod)
    ensures r.Err? ==> r.error == NotPostMessage
    ensures r.Ok? ==> CopiedWithContentType(request.headers, r.value)
  {
    if !IsPost(request.httpMethod) {
      return Err(NotPostMessage);
    }
    var src := request.headers;
    var out: Headers := map[];
    var pending := src.Keys;
    ghost var done: set<string> := {};
    while pending != {}
      invariant pending <= src.Keys && done == src.Keys - pending
      invariant forall k :: Get(out, k) == (if k in done then Get(src, k) else [])
      invariant forall k :: k in out ==> out[k] != []
      decreases pending
    {
      var key :| key in pending;
      var values := src[key];
      ghost var before := out;
      var i := 0;
      while i < |values|
        invariant 0 <= i <= |values|
        invariant Get(out, key) == values[..i]
        invariant forall k :: k != key ==> Get(out, k) == Get(before, k)
        invariant forall k :: k in out ==> out[k] != []
      {
        out := AddValues(out, key, [values[i]]);
        assert values[..i + 1] == values[..i] + [values[i]];
        i := i + 1;
      }
      assert values[..|values|] == values;
      pending := pending - {key};
      done := done + {key};
    }
    out := AddValues(out, ContentType, [GrpcContentType]);
    return Ok(out);
  }

  // ---------------------------------------------------------------------------
  // The response state and one step per callback
  // ---------------------------------------------------------------------------

  /** What the callbacks share: the flag, the future, the three collections, the incoming stream. */
  datatype CallState = CallState(
    isHeader: bool,
    response: Future,
    contentHeaders: Headers,  // grpcResponseMessage.Content.Headers
    headers: Headers,         // grpcResponseMessage.Headers
    trailingHeaders: Headers, // grpcResponseMessage.TrailingHeaders
    status: Option<StatusLine>,
    incoming: Channel,
    registrationDisposed: bool,
    abortRequested: bool)

  const InitialCall := CallState(true, Pending, map[], map[], map[], None, EmptyChannel, false, false)

  /** A batch is trailers-only when it is the first one and names grpc-status. */
  function TrailersOnly(isHeader: bool, batch: Headers): (r: bool)
    // a batch after the first is never trailers-only
    ensures r ==> isHeader
    // the first batch is trailers-only exactly when it carries grpc-status
    ensures isHeader ==> (r <==> GrpcStatus in batch)
  {
    isHeader && GrpcStatus in batch
  }

  /** OnHeadersReceived. */
  function HeadersStep(s: CallState, batch: Headers, line: StatusLine): (r: CallState)
    // the future, once set, keeps its value; after any batch it is set
    ensures s.response != Pending ==> r.response == s.response
    ensures r.response != Pending
    // after any batch everything further is a trailer
    ensures !r.isHeader
    // a closed stream stays closed
    ensures s.incoming.closed ==> r.incoming.closed
  {
    var trailersOnly := TrailersOnly(s.isHeader, batch);
    s.(
      contentHeaders := Merge(s.contentHeaders, batch),
      headers := if s.isHeader || trailersOnly then Merge(s.headers, batch) else s.headers,
      trailingHeaders := if s.isHeader || trailersOnly then s.trailingHeaders
                         else Merge(s.trailingHeaders, batch),
      status := if s.isHeader then Some(line) else s.status,
      incoming := if trailersOnly || !s.isHeader then CloseStep(s.incoming) else s.incoming,
      response := if s.response == Pending then Resolved else s.response,
      isHeader := false)
  }

  /** OnStreamingData: write the fragment through and flush at once. */
  function DataStep(s: CallState, data: seq<byte>): (r: CallState)
    ensures r.incoming.queue == s.incoming.queue + data && r.incoming.flushed
    ensures r == s.(incoming := r.incoming)
    ensures r.incoming.closed == s.incoming.closed && r.incoming.error == s.incoming.error
  {
    s.(incoming := FlushStep(WriteStep(s.incoming, data)))
  }

  /** The enum name that `{request.State}` formats. */
  function StateName(state: RequestState): string
  {
    match state
    case Initial => "Initial"
    case Queued => "Queued"
    case Processing => "Processing"
    case Finished => "Finished"
    case Error => "Error"
    case Aborted => "Aborted"
    case ConnectionTimedOut => "ConnectionTimedOut"
    case TimedOut => "TimedOut"
  }

  const UnknownErrorPrefix := "Unknown error while processing grpc req/resp (state="

  /** The message of the exception made up when the request carries none. */
  function UnknownErrorMessage(state: RequestState): (m: string)
    // it names the request state between the fixed prefix and ")."
    ensures |m| == |UnknownErrorPrefix| + |StateName(state)| + 2
    ensures m[|UnknownErrorPrefix|..|m| - 2] == StateName(state)
    // it cannot be mistaken for the client-abort message
    ensures m != AbortedMessage
  {
    var m := UnknownErrorPrefix + StateName(state) + ").";
    assert |m| > |UnknownErrorPrefix| > |AbortedMessage|;
    assert m[|UnknownErrorPrefix|..|m| - 2] == StateName(state);
    m
  }

  /** Distinct request states give distinct unknown-error messages. */
  lemma UnknownErrorNamesState(a: RequestState, b: RequestState)
    ensures UnknownErrorMessage(a) == UnknownErrorMessage(b) ==> a == b
  {
    if UnknownErrorMessage(a) == UnknownErrorMessage(b) {
      assert StateName(a) == StateName(b);
    }
  }

  /**
   * The error the terminal callback reports for a state other than Finished:
   * the request's exception, or the unknown-error one when there is none, and
   * the client-abort error in place of either for an aborted request.
   */
  function SelectedError(state: RequestState, exception: Option<string>): (f: Failure)
    // an abort overrides any exception the request carries
    ensures f == ClientAborted <==> state == Aborted
    ensures f.Raised? <==> state != Aborted && exception.Some?
    ensures f.Raised? ==> f.message == exception.value
    ensures f.UnknownError? ==> f.state == state
    // the message, in the order the callback decides it
    ensures Message(f) == if state == Aborted then AbortedMessage
                          else if exception.Some? then exception.value
                          else UnknownErrorMessage(state)
  {
    if state == Aborted then ClientAborted
    else if exception.Some? then Raised(exception.value)
    else UnknownError(state)
  }

  /** The exception's Message. */
  function Message(f: Failure): (m: string)
    // the two made-up messages tell an abort from an unknown error
    ensures !f.Raised? ==> (m == AbortedMessage <==> f == ClientAborted)
    ensures f.Raised? ==> m == f.message
  {
    match f
    case ClientAborted => AbortedMessage
    case Raised(m) => m
    case UnknownError(state) => UnknownErrorMessage(state)
  }

  /** The terminal Callback. */
  function TerminalStep(s: CallState, state: RequestState, exception: Option<string>): (r: CallState)
    ensures r.registrationDisposed
    ensures s.response != Pending ==> r.response == s.response
    ensures s.incoming.closed ==> r.incoming.closed
    // the incoming stream is closed unless the error went into the still pending future
    ensures s.response != Pending || state == Finished ==> r.incoming.closed
    ensures r.incoming.queue == s.incoming.queue
    // a failure before any header fails the future and leaves the stream as it was
    ensures state != Finished && s.response == Pending ==>
              r.response == Faulted(SelectedError(state, exception)) && r.incoming == s.incoming
    // a failure after it closes the stream with the error instead
    ensures state != Finished && s.response != Pending ==>
              r.incoming == CloseWithErrorStep(s.incoming, Message(SelectedError(state, exception)))
    // Finished closes the stream and leaves the future as it was
    ensures state == Finished ==> r.response == s.response && r.incoming == CloseStep(s.incoming)
    // nothing else changes: the header collections, status, flag and abort request are kept
    ensures r == s.(response := r.response, incoming := r.incoming, registrationDisposed := true)
  {
    if state != Finished then
      var ex := SelectedError(state, exception);
      if s.response == Pending then
        s.(response := Faulted(ex), registrationDisposed := true)
      else
        s.(incoming := CloseWithErrorStep(s.incoming, Message(ex)), registrationDisposed := true)
    else
      s.(incoming := CloseStep(s.incoming), registrationDisposed := true)
  }

  /** The cancellation token fires: it requests an abort until the registration is disposed. */
  function CancelStep(s: CallState): (r: CallState)
    ensures r.abortRequested == (s.abortRequested || !s.registrationDisposed)
    ensures r == s.(abortRequested := r.abortRequested)
  {
    if s.registrationDisposed then s else s.(abortRequested := true)
  }

  // ---------------------------------------------------------------------------
  // Runs of callbacks
  // ---------------------------------------------------------------------------

  datatype Event =
    | HeadersReceived(batch: Batch)
    | StreamingData(data: seq<byte>)
    | Terminal(state: RequestState, exception: Option<string>)
    | Cancel

  function Step(s: CallState, e: Event): CallState
  {
    match e
    case HeadersReceived(b) => HeadersStep(s, b.fields, b.line)
    case StreamingData(d) => DataStep(s, d)
    case Terminal(st, ex) => TerminalStep(s, st, ex)
    case Cancel => CancelStep(s)
  }

  function Run(s: CallState, es: seq<Event>): CallState
    decreases es
  {
    if es == [] then s else Run(Step(s, es[0]), es[1..])
  }

  /** Header batches only, in arrival order. */
  function ReceiveAll(s: CallState, bs: seq<Batch>): CallState
  {
    if bs == [] then s
    else
      var last := bs[|bs| - 1];
      HeadersStep(ReceiveAll(s, bs[..|bs| - 1]), last.fields, last.line)
  }

  /** All batches merged into `m`, in order. */
  function MergeAll(m: Headers, bs: seq<Batch>): Headers
  {
    if bs == [] then m else Merge(MergeAll(m, bs[..|bs| - 1]), bs[|bs| - 1].fields)
  }

  /**
   * The response future is set at most once: whatever callbacks follow, a set
   * future keeps its value, and a closed incoming stream stays closed.
   */
  lemma {:induction false} ResponseSetOnce(s: CallState, es: seq<Event>)
    ensures s.response != Pending ==> Run(s, es).response == s.response
    ensures s.incoming.closed ==> Run(s, es).incoming.closed
    decreases es
  {
    if es != [] {
      ResponseSetOnce(Step(s, es[0]), es[1..]);
    }
  }

  /**
   * Header routing over a whole call: every header of every batch is in
   * Content.Headers; Headers holds the first batch only (a trailers-only batch
   * included) and TrailingHeaders every later batch.
   */
  lemma {:induction false} HeaderRouting(bs: seq<Batch>)
    requires |bs| >= 1
    ensures ReceiveAll(InitialCall, bs).contentHeaders == MergeAll(map[], bs)
    ensures ReceiveAll(InitialCall, bs).headers == Merge(map[], bs[0].fields)
    ensures ReceiveAll(InitialCall, bs).trailingHeaders == MergeAll(map[], bs[1..])
  {
    var n := |bs|;
    if n == 1 {
      assert bs[..0] == [];
      assert bs[1..] == [];
    } else {
      var init := bs[..n - 1];
      HeaderRouting(init);
      var s := ReceiveAll(InitialCall, init);
      var last := bs[n - 1];
      assert ReceiveAll(InitialCall, bs) == HeadersStep(s, last.fields, last.line);
      assert !s.isHeader by { FirstBatchResolves(init); }
      assert init[0] == bs[0];
      assert MergeAll(map[], bs) == Merge(MergeAll(map[], init), last.fields);
      assert bs[1..][..n - 2] == init[1..];
      assert MergeAll(map[], bs[1..]) == Merge(MergeAll(map[], init[1..]), last.fields);
    }
  }

  /**
   * The first batch decides the status line and resolves the future; the
   * incoming stream is closed iff the first batch was trailers-only or a later
   * batch arrived.
   */
  lemma {:induction false} FirstBatchResolves(bs: seq<Batch>)
    requires |bs| >= 1
    ensures ReceiveAll(InitialCall, bs).status == Some(bs[0].line)
    ensures ReceiveAll(InitialCall, bs).response == Resolved
    ensures !ReceiveAll(InitialCall, bs).isHeader
    ensures ReceiveAll(InitialCall, bs).incoming.closed <==> |bs| >= 2 || GrpcStatus in bs[0].fields
  {
    var n := |bs|;
    if n == 1 {
      assert bs[..0] == [];
    } else {
      var init := bs[..n - 1];
      FirstBatchResolves(init);
      assert init[0] == bs[0];
    }
  }

  /** The events of a response before it ends: header batches and DATA fragments. */
  predicate Received(es: seq<Event>)
  {
    forall i :: 0 <= i < |es| ==> es[i].HeadersReceived? || es[i].StreamingData?
  }

  /** The header batches among the events, in arrival order. */
  function HeaderBatches(es: seq<Event>): seq<Batch>
  {
    if es == [] then []
    else
      var last := es[|es| - 1];
      HeaderBatches(es[..|es| - 1]) + (if last.HeadersReceived? then [last.batch] else [])
  }

  /** The DATA fragments among the events, concatenated in arrival order. */
  function DataBytes(es: seq<Event>): seq<byte>
  {
    if es == [] then []
    else
      var last := es[|es| - 1];
      DataBytes(es[..|es| - 1]) + (if last.StreamingData? then last.data else [])
  }

  lemma {:induction false} RunAppend(s: CallState, es: seq<Event>, e: Event)
    ensures Run(s, es + [e]) == Step(Run(s, es), e)
    decreases es
  {
    if es != [] {
      assert (es + [e])[1..] == es[1..] + [e];
      RunAppend(Step(s, es[0]), es[1..], e);
    }
  }

  /** Two call states that differ at most in the incoming stream's bytes. */
  predicate SameButBytes(t: CallState, u: CallState)
  {
    t == u.(incoming := t.incoming) && t.incoming.closed == u.incoming.closed
  }

  /** A header batch keeps two such states alike and keeps the stream's bytes. */
  lemma HeadersAlike(t: CallState, u: CallState, b: Batch)
    requires SameButBytes(t, u)
    ensures SameButBytes(HeadersStep(t, b.fields, b.line), HeadersStep(u, b.fields, b.line))
    ensures HeadersStep(t, b.fields, b.line).incoming.queue == t.incoming.queue
  {
    assert t.isHeader == u.isHeader;
  }

  /** A DATA fragment keeps two such states alike and is appended to the stream. */
  lemma DataAlike(t: CallState, u: CallState, d: seq<byte>)
    requires SameButBytes(t, u)
    ensures SameButBytes(DataStep(t, d), u)
    ensures DataStep(t, d).incoming.queue == t.incoming.queue + d
  {
  }

  lemma ReceivedPrefix(es: seq<Event>)
    requires Received(es) && es != []
    ensures Received(es[..|es| - 1])
  {
    var init := es[..|es| - 1];
    forall i | 0 <= i < |init| ensures init[i].HeadersReceived? || init[i].StreamingData? {
      assert init[i] == es[i];
    }
  }

  /** The header batches of a run that ends in a header batch. */
  lemma ReceiveOneMore(s: CallState, init: seq<Event>, b: Batch)
    ensures HeaderBatches(init + [HeadersReceived(b)]) == HeaderBatches(init) + [b]
    ensures ReceiveAll(s, HeaderBatches(init) + [b])
            == HeadersStep(ReceiveAll(s, HeaderBatches(init)), b.fields, b.line)
    ensures DataBytes(init + [HeadersReceived(b)]) == DataBytes(init)
  {
    var es := init + [HeadersReceived(b)];
    assert es[..|es| - 1] == init;
    var hb := HeaderBatches(init);
    assert (hb + [b])[..|hb|] == hb;
  }

  /** The header batches and bytes of a run that ends in a DATA fragment. */
  lemma DataOneMore(init: seq<Event>, d: seq<byte>)
    ensures HeaderBatches(init + [StreamingData(d)]) == HeaderBatches(init)
    ensures DataBytes(init + [StreamingData(d)]) == DataBytes(init) + d
  {
    var es := init + [StreamingData(d)];
    assert es[..|es| - 1] == init;
  }

  /**
   * DATA fragments between header batches only fill the incoming stream: the
   * headers, status, future and closed flag are those of the header batches
   * alone, and the stream holds every fragment in order.
   */
  lemma {:induction false} ReceivedRun(s: CallState, es: seq<Event>)
    requires Received(es)
    ensures SameButBytes(Run(s, es), ReceiveAll(s, HeaderBatches(es)))
    ensures Run(s, es).incoming.queue == s.incoming.queue + DataBytes(es)
  {
    if es != [] {
      var n := |es|;
      var init, e := es[..n - 1], es[n - 1];
      assert es == init + [e];
      ReceivedPrefix(es);
      ReceivedRun(s, init);
      RunAppend(s, init, e);
      var t, u := Run(s, init), ReceiveAll(s, HeaderBatches(init));
      if e.HeadersReceived? {
        assert e == HeadersReceived(e.batch);
        ReceiveOneMore(s, init, e.batch);
        HeadersAlike(t, u, e.batch);
      } else {
        assert e == StreamingData(e.data);
        DataOneMore(init, e.data);
        DataAlike(t, u, e.data);
      }
    }
  }

  /**
   * A streaming response as gRPC sees it, DATA included: Headers holds the first
   * header batch, TrailingHeaders the later ones and Content.Headers all of
   * them; the first batch gives the status line and resolves the future; the
   * stream holds every fragment and is closed exactly when the first batch was
   * trailers-only or a later batch arrived.
   */
  lemma StreamingResponse(es: seq<Event>)
    requires Received(es) && HeaderBatches(es) != []
    ensures var r, hb := Run(InitialCall, es), HeaderBatches(es);
            && r.contentHeaders == MergeAll(map[], hb)
            && r.headers == Merge(map[], hb[0].fields)
            && r.trailingHeaders == MergeAll(map[], hb[1..])
            && r.status == Some(hb[0].line)
            && r.response == Resolved
            && r.incoming.queue == DataBytes(es)
            && (r.incoming.closed <==> |hb| >= 2 || GrpcStatus in hb[0].fields)
  {
    ReceivedRun(InitialCall, es);
    HeaderRouting(HeaderBatches(es));
    FirstBatchResolves(HeaderBatches(es));
  }

  /**
   * Cancelling before any header arrives, followed by BestHTTP's Aborted
   * callback, fails the future with the "aborted by client" error, and no later
   * callback changes that.
   */
  lemma AbortBeforeHeaders(exception: Option<string>, later: seq<Event>)
    ensures var r := Run(InitialCall, [Cancel, Terminal(Aborted, exception)] + later);
            r.response == Faulted(ClientAborted)
  {
    var s := TerminalStep(CancelStep(InitialCall), Aborted, exception);
    assert s.response == Faulted(ClientAborted);
    ResponseSetOnce(s, later);
    var es := [Cancel, Terminal(Aborted, exception)] + later;
    assert es[1..][1..] == later;
  }

  /**
   * A Finished callback with no header batch before it closes the stream but
   * leaves the future pending: the code has no error path for it.
   */
  lemma FinishedWithoutHeadersLeavesPending(exception: Option<string>)
    ensures TerminalStep(InitialCall, Finished, exception).response == Pending
    ensures TerminalStep(InitialCall, Finished, exception).incoming.closed
  {
  }

  // ---------------------------------------------------------------------------
  // The call object
  // ---------------------------------------------------------------------------

  /** The state SendAsync captures in its callbacks for one request. */
  class GrpcCall {
    /** The headers of the outgoing BestHTTP request. */
    const requestHeaders: Headers
    const outgoing: PushPullStream
    const incoming: PushPullStream
    var isHeader: bool
    var response: Future
    var contentHeaders: Headers
    var headers: Headers
    var trailingHeaders: Headers
    var status: Option<StatusLine>
    var registrationDisposed: bool
    var abortRequested: bool

    function Model(): CallState
      reads this, incoming
    {
      CallState(isHeader, response, contentHeaders, headers, trailingHeaders, status,
                incoming.Model(), registrationDisposed, abortRequested)
    }

    /** Creates both streams; the outgoing one reads without blocking. */
    constructor (requestHeaders: Headers)
      ensures this.requestHeaders == requestHeaders
      ensures Model() == InitialCall
      ensures fresh(incoming) && fresh(outgoing) && incoming != outgoing
      ensures outgoing.Model() == EmptyChannel.(nonBlockingRead := true)
    {
      this.requestHeaders := requestHeaders;
      outgoing := new PushPullStream("outgoing");
      incoming := new PushPullStream("incoming");
      isHeader, response := true, Pending;
      contentHeaders, headers, trailingHeaders := map[], map[], map[];
      status := None;
      registrationDisposed, abortRequested := false, false;
      new;
      outgoing.nonBlockingRead := true;
    }

    /**
     * The foreach of OnHeadersReceived: every entry of the batch goes to
     * Content.Headers, and to Headers when `toHeaders` holds, else to TrailingHeaders.
     */
    method AddBatch(batch: Headers, toHeaders: bool)
      modifies this`contentHeaders, this`headers, this`trailingHeaders
      ensures contentHeaders == Merge(old(contentHeaders), batch)
      ensures headers == if toHeaders then Merge(old(headers), batch) else old(headers)
      ensures trailingHeaders == if toHeaders then old(trailingHeaders) else Merge(old(trailingHeaders), batch)
    {
      var content := contentHeaders;
      // the collection that receives the batch besides Content.Headers
      var other := if toHeaders then headers else trailingHeaders;
      ghost var content0, other0 := content, other;
      var pending := batch.Keys;
      ghost var done: set<string> := {};
      MergeNothing(content0, batch);
      MergeNothing(other0, batch);
      while pending != {}
        modifies {}
        invariant pending <= batch.Keys && done == batch.Keys - pending
        invariant content == Merge(content0, Restrict(batch, done))
        invariant other == Merge(other0, Restrict(batch, done))
        decreases pending
      {
        var key :| key in pending;
        MergeOneMore(content0, batch, done, key);
        MergeOneMore(other0, batch, done, key);
        content := AddValues(content, key, batch[key]);
        other := AddValues(other, key, batch[key]);
        pending := pending - {key};
        done := done + {key};
      }
      assert done == batch.Keys;
      RestrictAll(batch);
      assert content == Merge(content0, batch);
      assert other == Merge(other0, batch);
      if toHeaders {
        headers := other;
      } else {
        trailingHeaders := other;
      }
      contentHeaders := content;
    }

    /** The OnHeadersReceived callback. */
    method OnHeadersReceived(batch: Headers, line: StatusLine)
      modifies this`contentHeaders, this`headers, this`trailingHeaders, this`status,
        this`response, this`isHeader, incoming
      ensures Model() == HeadersStep(old(Model()), batch, line)
      ensures incoming.flushSubscribers == old(incoming.flushSubscribers)
    {
      var trailersOnly := TrailersOnly(isHeader, batch);
      AddBatch(batch, isHeader || trailersOnly);
      if isHeader {
        status := Some(line);
      }
      if trailersOnly || !isHeader {
        incoming.Close();
      }
      if response == Pending {
        response := Resolved;
      }
      isHeader := false;
    }

    /** The OnStreamingData callback; it always answers true. */
    method OnStreamingData(fragment: array<byte>, length: int) returns (accepted: bool)
      requires length > 0 ==> length <= fragment.Length
      requires incoming.Length() < MAX_BUFFER_LENGTH
      modifies incoming
      ensures accepted
      ensures Model() == DataStep(old(Model()), if length > 0 then fragment[..length] else [])
      ensures incoming.flushSubscribers == old(incoming.flushSubscribers)
    {
      incoming.Write(fragment, 0, length);
      incoming.Flush();
      return true;
    }

    /** The terminal Callback, with the request's final state and exception. */
    method OnRequestFinished(state: RequestState, exception: Option<string>)
      modifies this`response, this`registrationDisposed, incoming
      ensures Model() == TerminalStep(old(Model()), state, exception)
      ensures incoming.flushSubscribers == old(incoming.flushSubscribers)
    {
      if state != Finished {
        var ex := SelectedError(state, exception);
        if response == Pending {
          response := Faulted(ex);
        } else {
          incoming.CloseWithError(Message(ex));
        }
      } else {
        incoming.Close();
      }
      registrationDisposed := true;
    }

    /** The cancellation token fires: the registered action asks for bestRequest.Abort(). */
    method OnCancel()
      modifies this`abortRequested
      ensures Model() == CancelStep(old(Model()))
    {
      if !registrationDisposed {
        abortRequested := true;
      }
    }
  }

  /**
   * SendAsync: the POST check comes first; on success a new call is set up with
   * the copied request headers and awaits its callbacks.
   */
  method SendAsync(request: HttpRequestMessage) returns (r: Result<GrpcCall>)
    ensures r.Err? <==> !IsPost(request.httpMethod)
    ensures r.Err? ==> r.error == NotPostMessage
    ensures r.Ok? ==> fresh(r.value) && r.value.Model() == InitialCall
    ensures r.Ok? ==> CopiedWithContentType(request.headers, r.value.requestHeaders)
  {
    var prepared := PrepareRequest(request);
    if prepared.Err? {
      return Err(prepared.error);
    }
    var call := new GrpcCall(prepared.value);
    return Ok(call);
  }
}

=== FILE: hello_world_service.dfy ===
/**
 * The response rules of the example server's HelloWorldServiceImpl
 * (grpc-example-server/src/main/java/net/grpc/example/HelloWorldServiceImpl.java):
 * what each service method emits on its response observer, as a trace of calls.
 */
module HelloWorldService {

  /** The io.grpc status codes the service uses. */
  datatype Code = InvalidArgument | Internal

  /** One call on the response observer. */
  datatype Event =
    | Next(text: string)
    | Error(code: Code, description: string, metadata: seq<(string, string)>)
    | Completed

  const NoResponse := "[no-response]"
  const ExceptionBefore := "[exception-before]"
  const ExceptionBeforeMeta := "[exception-before-meta]"
  const ExceptionAfter := "[exception-after]"
  const ExceptionAfterMeta := "[exception-after-meta]"
  const Stop := "[stop]"

  /** The error descriptions; the variants that attach metadata append WithMetadata. */
  const BeforeResponse := "Before Response Exception"
  const AfterResponse := "After Response Exception"
  const WithMetadata := " with Metadata"

  /** The two entries attached to the "with Metadata" errors. */
  const ErrorMetadata: seq<(string, string)> :=
    [("metadata-key", "metadata-value"), ("metadata-key1", "metadata-value1")]

  /** `s.contains(sub)`. */
  predicate Contains(s: string, sub: string)
  {
    (|sub| <= |s| && s[..|sub|] == sub) || (|s| > 0 && Contains(s[1..], sub))
  }

  /** Java's decimal rendering of a non-negative int. */
  function NatToString(n: nat): (r: string)
    ensures |r| >= 1
    ensures forall i :: 0 <= i < |r| ==> '0' <= r[i] <= '9'
  {
    if n < 10 then [DigitChar(n)] else NatToString(n / 10) + [DigitChar(n % 10)]
  }

  function DigitChar(d: nat): (c: char)
    requires d < 10
    ensures '0' <= c <= '9'
  {
    "0123456789"[d]
  }

  /** The observer protocol: any number of Next calls, then exactly one Error or Completed. */
  predicate WellFormed(trace: seq<Event>)
  {
    && |trace| >= 1
    && !trace[|trace| - 1].Next?
    && forall i :: 0 <= i < |trace| - 1 ==> trace[i].Next?
  }

  /** The texts of the Next calls, in order. */
  function NextTexts(trace: seq<Event>): seq<string>
  {
    if trace == [] then []
    else (if trace[0].Next? then [trace[0].text] else []) + NextTexts(trace[1..])
  }

  /** The unary call `hello`. */
  function Hello(text: string): (r: seq<Event>)
    ensures WellFormed(r)
    // a Next is sent, carrying "Hello " + text, unless the call ends before it
    ensures NextTexts(r) ==
      if Contains(text, NoResponse) || Contains(text, ExceptionBefore) || Contains(text, ExceptionBeforeMeta)
      then [] else ["Hello " + text]
    // the call fails unless [no-response] is given or no exception marker is
    ensures r[|r| - 1].Error? <==>
      !Contains(text, NoResponse) &&
      (Contains(text, ExceptionBefore) || Contains(text, ExceptionBeforeMeta) ||
       Contains(text, ExceptionAfter) || Contains(text, ExceptionAfterMeta))
    // an error before the greeting is INVALID_ARGUMENT, one after it INTERNAL
    ensures r[|r| - 1].Error? ==> (r[|r| - 1].code == InvalidArgument <==> NextTexts(r) == [])
    // the plain marker is checked first; only the "-meta" variant attaches the metadata
    ensures r[|r| - 1].Error? ==>
      (r[|r| - 1].metadata == ErrorMetadata <==>
       if NextTexts(r) == [] then !Contains(text, ExceptionBefore) else !Contains(text, ExceptionAfter))
    ensures r[|r| - 1].Error? ==> r[|r| - 1].metadata == [] || r[|r| - 1].metadata == ErrorMetadata
    ensures r[|r| - 1].Error? ==>
      r[|r| - 1].description ==
        (if r[|r| - 1].code == InvalidArgument then BeforeResponse else AfterResponse)
        + (if r[|r| - 1].metadata == ErrorMetadata then WithMetadata else "")
  {
    var r :=
      if !Contains(text, NoResponse) then
        if Contains(text, ExceptionBefore) then
          [Error(InvalidArgument, BeforeResponse, [])]
        else if Contains(text, ExceptionBeforeMeta) then
          [Error(InvalidArgument, BeforeResponse + WithMetadata, ErrorMetadata)]
        else
          [Next("Hello " + text)] +
          if Contains(text, ExceptionAfter) then
            [Error(Internal, AfterResponse, [])]
          else if Contains(text, ExceptionAfterMeta) then
            [Error(Internal, AfterResponse + WithMetadata, ErrorMetadata)]
          else
            [Completed]
      else
        [Completed];
    assert r == r[..|r| - 1] + [r[|r| - 1]];
    NextTextsOfNexts(r[..|r| - 1], r[|r| - 1]);
    r
  }

  /** The message `msg [k]`. */
  function Numbered(msg: string, k: int): string
    requires k >= 0
  {
    msg + " [" + NatToString(k) + "]"
  }

  /**
   * `sendMessageFor`, with the scheduled re-invocation as plain recursion:
   * msg [n], msg [n-1], ..., msg [1], then Completed.
   */
  function SendMessageFor(msg: string, number: int): (r: seq<Event>)
    ensures WellFormed(r)
    ensures |r| == (if number > 0 then number else 0) + 1
    ensures forall i :: 0 <= i < |r| - 1 ==> r[i] == Next(Numbered(msg, number - i))
    ensures r[|r| - 1] == Completed
    decreases number
  {
    if number > 0 then
      [Next(Numbered(msg, number))] + SendMessageFor(msg, number - 1)
    else
      [Completed]
  }

  /** The server-streaming call `helloServer`: four numbered greetings, then Completed. */
  function HelloServer(text: string): (r: seq<Event>)
    ensures WellFormed(r) && |r| == 5 && r[4] == Completed
    ensures forall i :: 0 <= i < 4 ==> r[i] == Next(Numbered("Hello " + text, 4 - i))
  {
    SendMessageFor("Hello " + text, 4)
  }

  // ---------------------------------------------------------------------------
  // helloClient
  // ---------------------------------------------------------------------------

  const StopError := Error(Internal, "Abort from Server side", [])

  /** What the onNext calls of helloClient emit: one error per [stop] message. */
  function StopErrors(requests: seq<string>): seq<Event>
  {
    if requests == [] then []
    else
      var last := requests[|requests| - 1];
      StopErrors(requests[..|requests| - 1]) + (if Contains(last, Stop) then [StopError] else [])
  }

  /** The number of messages that contain [stop]. */
  function StopCount(requests: seq<string>): nat
  {
    if requests == [] then 0
    else StopCount(requests[..|requests| - 1]) + (if Contains(requests[|requests| - 1], Stop) then 1 else 0)
  }

  /** The full trace of helloClient for the client messages `requests`. */
  function HelloClientTrace(requests: seq<string>): seq<Event>
  {
    StopErrors(requests) + [Next("Hello to all  " + NatToString(|requests|)), Completed]
  }

  lemma {:induction false} StopErrorsAreStopErrors(requests: seq<string>)
    ensures |StopErrors(requests)| == StopCount(requests)
    ensures forall i :: 0 <= i < |StopErrors(requests)| ==> StopErrors(requests)[i] == StopError
  {
    if requests != [] {
      StopErrorsAreStopErrors(requests[..|requests| - 1]);
    }
  }

  /**
   * helloClient ends with Next("Hello to all  " + count) and Completed, where the
   * count includes the [stop] messages, each of which first added an INTERNAL error.
   */
  lemma HelloClientShape(requests: seq<string>)
    ensures var t := HelloClientTrace(requests);
            && |t| == StopCount(requests) + 2
            && (forall i :: 0 <= i < |t| - 2 ==> t[i] == StopError)
            && t[|t| - 2] == Next("Hello to all  " + NatToString(|requests|))
            && t[|t| - 1] == Completed
  {
    StopErrorsAreStopErrors(requests);
  }

  /**
   * Without [stop] messages helloClient keeps the observer protocol; with one it
   * does not, since it goes on calling onNext and onCompleted after onError.
   */
  lemma HelloClientProtocol(requests: seq<string>)
    ensures WellFormed(HelloClientTrace(requests)) <==> StopCount(requests) == 0
  {
    StopErrorsAreStopErrors(requests);
    var t := HelloClientTrace(requests);
    if StopCount(requests) > 0 {
      assert !t[0].Next?;
    }
  }

  /** The request observer helloClient returns. */
  class HelloClientObserver {
    var count: int
    /** The calls made on the response observer so far. */
    var sent: seq<Event>
    /** The messages received so far. */
    ghost var received: seq<string>

    ghost predicate Valid()
      reads this
    {
      count == |received| && sent == StopErrors(received)
    }

    constructor ()
      ensures Valid() && received == [] && sent == []
    {
      count, sent, received := 0, [], [];
    }

    method OnNext(text: string)
      requires Valid()
      modifies this
      ensures Valid() && received == old(received) + [text]
      ensures sent == old(sent) + (if Contains(text, Stop) then [StopError] else [])
    {
      if Contains(text, Stop) {
        sent := sent + [StopError];
      }
      count := count + 1;
      received := received + [text];
      assert received[..|received| - 1] == old(received);
    }

    /** A client error is only logged. */
    method OnError(message: string)
      requires Valid()
      ensures Valid() && received == old(received) && sent == old(sent)
    {
    }

    method OnCompleted()
      requires Valid()
      modifies this`sent
      ensures sent == HelloClientTrace(received)
    {
      sent := sent + [Next("Hello to all  " + NatToString(count)), Completed];
    }
  }

  // ---------------------------------------------------------------------------
  // helloBoth
  // ---------------------------------------------------------------------------

  /** What the onNext calls of helloBoth emit: each message echoed with its 0-based index. */
  function Echoes(requests: seq<string>): (r: seq<Event>)
    ensures |r| == |requests|
    ensures forall i :: 0 <= i < |r| ==> r[i] == Next(Numbered(requests[i], i))
  {
    if requests == [] then []
    else
      var n := |requests| - 1;
      Echoes(requests[..n]) + [Next(Numbered(requests[n], n))]
  }

  /** The full trace of helloBoth: the echoes, then Completed when the client completes. */
  function HelloBothTrace(requests: seq<string>): (r: seq<Event>)
    ensures WellFormed(r)
    ensures NextTexts(r) == seq(|requests|, i requires 0 <= i < |requests| => Numbered(requests[i], i))
  {
    var r := Echoes(requests) + [Completed];
    NextTextsOfNexts(Echoes(requests), Completed);
    r
  }

  /** NextTexts of a run of Next calls and one terminal call lists their texts. */
  lemma {:induction false} NextTextsOfNexts(nexts: seq<Event>, last: Event)
    requires forall i :: 0 <= i < |nexts| ==> nexts[i].Next?
    requires !last.Next?
    ensures NextTexts(nexts + [last]) == seq(|nexts|, i requires 0 <= i < |nexts| => nexts[i].text)
  {
    if nexts == [] {
      assert NextTexts([last]) == [] + NextTexts([]);
    } else {
      NextTextsOfNexts(nexts[1..], last);
      assert (nexts + [last])[1..] == nexts[1..] + [last];
    }
  }

  /** The request observer helloBoth returns. */
  class HelloBothObserver {
    var count: int
    var sent: seq<Event>
    ghost var received: seq<string>

    ghost predicate Valid()
      reads this
    {
      count == |received| && sent == Echoes(received)
    }

    constructor ()
      ensures Valid() && received == [] && sent == []
    {
      count, sent, received := 0, [], [];
    }

    method OnNext(text: string)
      requires Valid()
      modifies this
      ensures Valid() && received == old(received) + [text]
      ensures sent == old(sent) + [Next(Numbered(text, |old(received)|))]
    {
      sent := sent + [Next(Numbered(text, count))];
      count := count + 1;
      received := received + [text];
      assert received[..|received| - 1] == old(received);
    }

    /** A client error is only logged. */
    method OnError(message: string)
      requires Valid()
      ensures Valid() && received == old(received) && sent == old(sent)
    {
    }

    method OnCompleted()
      requires Valid()
      modifies this`sent
      ensures sent == HelloBothTrace(received)
    {
      sent := sent + [Completed];
    }
  }
}

=== FILE: push_pull_stream.dfy ===
/**
 * The byte channel between gRPC's pull-based body streams and BestHTTP's
 * push-based callbacks (Assets/GRPC.NET/Scripts/PushPullStream.cs).
 *
 * The monitor lock is abstracted away: every blocking wait becomes a
 * precondition on the predicate that wakes it.
 */
module PushPullStreams {
  import opened Wrappers

  type byte = bv8

  /** Soft capacity: a write is admitted only while fewer bytes than this are queued. */
  const MAX_BUFFER_LENGTH: int := 5 * 1024 * 1024

  /** The observable state of a stream, as a value. */
  datatype Channel = Channel(
    queue: seq<byte>,      // the FIFO queue, front first
    flushed: bool,
    closed: bool,
    nonBlockingRead: bool,
    error: Option<string>) // set only by CloseWithError

  /** A freshly constructed stream. */
  const EmptyChannel := Channel([], false, false, false, None)

  /** What a Read returns: the stream afterwards, the bytes copied out, and the return value. */
  datatype ReadOutcome = ReadOutcome(after: Channel, copied: seq<byte>, result: int)

  function Min(a: int, b: int): int { if a <= b then a else b }

  /** The wake-up predicate of a Read blocked on `count` bytes. */
  function ReadAvailable(c: Channel, count: int): (r: bool)
    // a closed stream, or one in non-blocking mode, never holds a reader back
    ensures c.closed || c.nonBlockingRead ==> r
    // otherwise the reader waits for a flush that leaves `count` bytes queued
    ensures !c.closed && !c.nonBlockingRead ==> (r <==> c.flushed && count <= |c.queue|)
  {
    (|c.queue| >= count && c.flushed) || c.closed || c.nonBlockingRead
  }

  /** A Read of `count` bytes once it may proceed. */
  function ReadStep(c: Channel, count: int): (o: ReadOutcome)
    // a zero-count request returns 0 and changes nothing
    ensures count == 0 ==> o == ReadOutcome(c, [], 0)
    // the copied bytes are the front of the queue, in order; the rest stays queued
    ensures o.copied + o.after.queue == c.queue
    ensures |o.copied| == if count <= 0 then 0 else Min(count, |c.queue|)
    // only the queue changes
    ensures o.after == c.(queue := o.after.queue)
    // -1 means "no data yet": nothing copied on a stream that is still open
    ensures o.result == -1 <==> (count != 0 && o.copied == [] && !c.closed)
    ensures o.result != -1 ==> o.result == |o.copied|
  {
    if count == 0 then ReadOutcome(c, [], 0)
    else
      var n := if count < 0 then 0 else Min(count, |c.queue|);
      assert c.queue[..n] + c.queue[n..] == c.queue;
      ReadOutcome(c.(queue := c.queue[n..]), c.queue[..n], if n == 0 && !c.closed then -1 else n)
  }

  /** A Write of `data` once it is admitted. */
  function WriteStep(c: Channel, data: seq<byte>): (r: Channel)
    // bytes already queued stay in front, the new bytes follow in order
    ensures |r.queue| == |c.queue| + |data|
    ensures r.queue[..|c.queue|] == c.queue && r.queue[|c.queue|..] == data
    ensures !r.flushed
    ensures r.closed == c.closed && r.nonBlockingRead == c.nonBlockingRead && r.error == c.error
    // the capacity is soft: an admitted write may overshoot it by less than one write
    ensures |c.queue| < MAX_BUFFER_LENGTH ==> |r.queue| < MAX_BUFFER_LENGTH + |data|
  {
    c.(queue := c.queue + data, flushed := false)
  }

  function FlushStep(c: Channel): (r: Channel)
    ensures r.flushed && r.queue == c.queue
    ensures r.closed == c.closed && r.nonBlockingRead == c.nonBlockingRead && r.error == c.error
    // a flushed stream wakes a reader that asked for no more than is queued
    ensures forall count :: count <= |r.queue| ==> ReadAvailable(r, count)
  {
    c.(flushed := true)
  }

  function CloseStep(c: Channel): (r: Channel)
    ensures r.closed && r.flushed && r.queue == c.queue && r.error == c.error
    ensures r.nonBlockingRead == c.nonBlockingRead
    // no reader stays blocked on a closed stream
    ensures forall count :: ReadAvailable(r, count)
  {
    FlushStep(c.(closed := true))
  }

  /**
   * The abstract "closed with error e" state reached by CloseWithException, which the
   * handler calls but which PushPullStream.cs does not define: closed as by Close, with
   * the error recorded.
   */
  function CloseWithErrorStep(c: Channel, e: string): (r: Channel)
    ensures r.closed && r.error == Some(e) && r.queue == c.queue
    ensures r.flushed && r.nonBlockingRead == c.nonBlockingRead
    ensures forall count :: ReadAvailable(r, count)
  {
    CloseStep(c).(error := Some(e))
  }

  /** Concatenation of the chunks written one after another. */
  function Flatten(chunks: seq<seq<byte>>): seq<byte>
  {
    if chunks == [] then [] else Flatten(chunks[..|chunks| - 1]) + chunks[|chunks| - 1]
  }

  /** Successive writes of `chunks`, each followed by nothing else. */
  function WriteAll(c: Channel, chunks: seq<seq<byte>>): Channel
  {
    if chunks == [] then c else WriteStep(WriteAll(c, chunks[..|chunks| - 1]), chunks[|chunks| - 1])
  }

  /** Successive reads of the given sizes: the bytes copied by all of them, and the final stream. */
  function ReadAll(c: Channel, sizes: seq<int>): (seq<byte>, Channel)
    decreases sizes
  {
    if sizes == [] then ([], c)
    else
      var o := ReadStep(c, sizes[0]);
      var rest := ReadAll(o.after, sizes[1..]);
      (o.copied + rest.0, rest.1)
  }

  function Sum(sizes: seq<int>): int
  {
    if sizes == [] then 0 else sizes[0] + Sum(sizes[1..])
  }

  /** Writes append their bytes to the queue in order and never reopen or unflag the stream. */
  lemma {:induction false} WriteAllAppends(c: Channel, chunks: seq<seq<byte>>)
    ensures WriteAll(c, chunks).queue == c.queue + Flatten(chunks)
    ensures WriteAll(c, chunks).closed == c.closed
    ensures WriteAll(c, chunks).nonBlockingRead == c.nonBlockingRead
    ensures WriteAll(c, chunks).error == c.error
  {
    if chunks != [] {
      var init := chunks[..|chunks| - 1];
      WriteAllAppends(c, init);
      var w := WriteAll(c, init);
      var last := chunks[|chunks| - 1];
      assert WriteStep(w, last).queue == w.queue + last;
    }
  }

  /**
   * Reads hand out the queue in FIFO order: what they copy, followed by what is
   * left, is the original queue.
   */
  lemma {:induction false} ReadAllInOrder(c: Channel, sizes: seq<int>)
    ensures ReadAll(c, sizes).0 + ReadAll(c, sizes).1.queue == c.queue
    decreases sizes
  {
    if sizes != [] {
      var o := ReadStep(c, sizes[0]);
      ReadAllInOrder(o.after, sizes[1..]);
      var rest := ReadAll(o.after, sizes[1..]);
      assert ReadAll(c, sizes) == (o.copied + rest.0, rest.1);
      assert rest.0 + rest.1.queue == o.after.queue;
      assert o.copied + o.after.queue == c.queue;
      assert (o.copied + rest.0) + rest.1.queue == o.copied + (rest.0 + rest.1.queue);
    }
  }

  /** Reads change nothing but the queue: a closed stream stays closed, its error kept. */
  lemma {:induction false} ReadAllKeepsFlags(c: Channel, sizes: seq<int>)
    ensures ReadAll(c, sizes).1 == c.(queue := ReadAll(c, sizes).1.queue)
    decreases sizes
  {
    if sizes != [] {
      ReadAllKeepsFlags(ReadStep(c, sizes[0]).after, sizes[1..]);
    }
  }

  /** Positive read sizes whose total covers the queue drain it completely. */
  lemma {:induction false} ReadAllDrains(c: Channel, sizes: seq<int>)
    requires forall i :: 0 <= i < |sizes| ==> sizes[i] > 0
    requires Sum(sizes) >= |c.queue|
    ensures ReadAll(c, sizes).0 == c.queue
    ensures ReadAll(c, sizes).1.queue == []
    decreases sizes
  {
    ReadAllInOrder(c, sizes);
    if sizes != [] {
      var o := ReadStep(c, sizes[0]);
      if sizes[0] >= |c.queue| {
        assert o.after.queue == [];
        ReadAllInOrder(o.after, sizes[1..]);
      } else {
        assert |o.after.queue| == |c.queue| - sizes[0];
        ReadAllDrains(o.after, sizes[1..]);
      }
    }
  }

  /**
   * Round trip: chunks written into a new stream that is then closed are read
   * back, whatever the read sizes, exactly and in order; every one of those reads
   * may proceed, and the next read reports end of stream (0).
   */
  lemma {:induction false} WriteCloseReadRoundTrip(chunks: seq<seq<byte>>, sizes: seq<int>, next: int)
    requires forall i :: 0 <= i < |sizes| ==> sizes[i] > 0
    requires Sum(sizes) >= |Flatten(chunks)|
    requires next > 0
    ensures var closed := CloseStep(WriteAll(EmptyChannel, chunks));
            && (forall count :: ReadAvailable(closed, count))
            && ReadAll(closed, sizes).0 == Flatten(chunks)
            && ReadStep(ReadAll(closed, sizes).1, next).result == 0
  {
    WriteAllAppends(EmptyChannel, chunks);
    var closed := CloseStep(WriteAll(EmptyChannel, chunks));
    ReadAllDrains(closed, sizes);
    ReadAllKeepsFlags(closed, sizes);
  }

  /**
   * Two bytes written without a flush do not wake a blocking reader asking for
   * both; after Flush the reader may proceed and receives them in order.
   */
  lemma FlushWakesBlockedReader(a: byte, b: byte)
    ensures var w := WriteAll(EmptyChannel, [[a], [b]]);
            && !ReadAvailable(w, 2)
            && ReadAvailable(FlushStep(w), 2)
            && ReadStep(FlushStep(w), 2).copied == [a, b]
            && ReadStep(FlushStep(w), 2).result == 2
  {
    WriteAllAppends(EmptyChannel, [[a], [b]]);
    assert Flatten([[a], [b]]) == [a, b] by {
      assert [[a], [b]][..1] == [[a]];
      assert [[a]][..0] == [];
      assert Flatten([[a]]) == [a];
    }
  }

  /** The stream object: a byte queue, the two flags and the read mode. */
  class PushPullStream {
    const name: string
    var queue: seq<byte>
    var flushed: bool
    var closed: bool
    var nonBlockingRead: bool
    var error: Option<string>
    /** Handlers subscribed to OnStreamFlushCallback. */
    var flushSubscribers: nat
    /** Handler invocations made so far by Flush. */
    var flushSignals: nat

    function Model(): Channel
      reads this
    {
      Channel(queue, flushed, closed, nonBlockingRead, error)
    }

    constructor (name: string)
      ensures this.name == name && Model() == EmptyChannel
      ensures flushSubscribers == 0 && flushSignals == 0
    {
      this.name := name;
      queue, flushed, closed, nonBlockingRead, error := [], false, false, false, None;
      flushSubscribers, flushSignals := 0, 0;
    }

    /** The number of queued bytes. */
    function Length(): (n: nat)
      reads this
      ensures n == |Model().queue|
      // a reader asking for all queued bytes waits only for a flush or a close
      ensures ReadAvailable(Model(), n) <==> flushed || closed || nonBlockingRead
    {
      |queue|
    }

    /**
     * Copies up to `count` queued bytes into buffer[0..] (the offset is not used) and
     * returns their number, -1 if none were available on an open stream, or 0 for a
     * zero-count request or at end of stream. A blocked call proceeds once ReadAvailable holds.
     */
    method Read(buffer: array<byte>, offset: int, count: int) returns (r: int)
      requires count <= buffer.Length
      requires count != 0 ==> ReadAvailable(Model(), count)
      modifies this`queue, buffer
      ensures var o := ReadStep(old(Model()), count);
              && Model() == o.after && r == o.result
              && buffer[..|o.copied|] == o.copied
              && buffer[|o.copied|..] == old(buffer[|o.copied|..])
    {
      if count == 0 {
        return 0;
      }
      var readLength := 0;
      while readLength < count && Length() > 0 && |queue| > 0
        invariant 0 <= readLength <= |old(queue)|
        invariant count > 0 ==> readLength <= count
        invariant count <= 0 ==> readLength == 0
        invariant queue == old(queue)[readLength..]
        invariant buffer[..readLength] == old(queue)[..readLength]
        invariant buffer[readLength..] == old(buffer[readLength..])
        decreases |queue|
      {
        buffer[readLength] := queue[0];
        queue := queue[1..];
        readLength := readLength + 1;
      }
      if readLength == 0 && !closed {
        return -1;
      }
      return readLength;
    }

    /**
     * Appends buffer[offset..offset+count) to the tail and clears the flushed flag.
     * A blocked call proceeds once fewer than MAX_BUFFER_LENGTH bytes are queued.
     */
    method Write(buffer: array<byte>, offset: int, count: int)
      requires count > 0 ==> 0 <= offset && offset + count <= buffer.Length
      requires Length() < MAX_BUFFER_LENGTH
      modifies this`queue, this`flushed
      ensures Model() == WriteStep(old(Model()), if count > 0 then buffer[offset..offset + count] else [])
    {
      var i := offset;
      while i < offset + count
        invariant count > 0 ==> offset <= i <= offset + count && queue == old(queue) + buffer[offset..i]
        invariant count <= 0 ==> i == offset && queue == old(queue)
      {
        queue := queue + [buffer[i]];
        i := i + 1;
      }
      flushed := false;
    }

    /** Marks the stream flushed and invokes every subscribed flush handler once. */
    method Flush()
      modifies this`flushed, this`flushSignals
      ensures Model() == FlushStep(old(Model()))
      ensures flushSignals == old(flushSignals) + flushSubscribers
    {
      flushed := true;
      flushSignals := flushSignals + flushSubscribers;
    }

    /** Marks the stream closed, then flushes it. */
    method Close()
      modifies this`closed, this`flushed, this`flushSignals
      ensures Model() == CloseStep(old(Model()))
      ensures flushSignals == old(flushSignals) + flushSubscribers
    {
      closed := true;
      Flush();
    }

    /** Closes the stream with error `e` (the abstract CloseWithException). */
    method CloseWithError(e: string)
      modifies this`closed, this`flushed, this`error, this`flushSignals
      ensures Model() == CloseWithErrorStep(old(Model()), e)
      ensures flushSignals == old(flushSignals) + flushSubscribers
    {
      closed := true;
      error := Some(e);
      Flush();
    }

    /** `OnStreamFlushCallback += handler`. */
    method AddFlushCallback()
      modifies this`flushSubscribers
      ensures flushSubscribers == old(flushSubscribers) + 1
    {
      flushSubscribers := flushSubscribers + 1;
    }
  }
}

=== FILE: wrappers.dfy ===
/** Option and Result, shared by the other modules. */
module Wrappers {

  datatype Option<+T> = None | Some(value: T)

  /** The outcome of an operation that can throw: a value or an exception message. */
  datatype Result<+T> = Ok(value: T) | Err(error: string)
}
